=== FILE: README.md ===
# Credential and key helpers of reportviolenceonline, in Dafny

This project models the logic of `helper.go` in the reportviolenceonline server:

- `randomASCII`, the generator of superuser credentials and of the session cookie key;
- the password digest that `addUser` stores;
- the envelope that `addKeys` builds: a fresh Curve25519 private key sealed with AES-256-GCM under a key that Argon2id derives from the admin password;
- the reopen path kept in the comment at the end of `addKeys`;
- the `encrypt` / `decrypt` pair built on NaCl box, with the nonce prepended.

Everything is a pure function of its inputs. Randomness is passed in as parameters:
- the value `math/rand.Intn` returned for a length;
- the stream of `crypto/rand.Int` values for the characters;
- the salts, nonces and key seed read from `crypto/rand`.

Identifiers assigned by the database are parameters as well. A Go panic becomes an `Err` of `Results.Result`, naming the panic.

The cryptographic primitives are kept abstract. `Primitives.Suite` bundles, as function values:
- Argon2id;
- AES-GCM seal and open;
- Curve25519 scalar multiplication;
- HSalsa20;
- secretbox seal and open.

Their laws are predicates over a suite:
- Argon2id output length;
- the AEAD round trip;
- the 16-byte tag overhead;
- Diffie-Hellman agreement;
- the secretbox round trip.

Each property requires only the laws it uses. NaCl box is built from the primitives the way golang.org/x/crypto builds it: secretbox under `Precompute(peer, sk) = HSalsa20(X25519(sk, peer))`. This is what makes the all-zero sender secret of `encrypt`/`decrypt` visible. `decrypt` opens with `ScalarBaseMult(0)` as the peer key. The round trip holds by DH agreement. The same structure shows that the public key alone suffices to open any `encrypt` output (`BoxCipher.PublicKeyAloneOpens`). The model reproduces this construction as written and does not replace it.

Files, one module each:
- `results.dfy`: `Option`, `Result` and the panics.
- `bytes.dfy`: bytes and the fixed-width arrays.
- `primitives.dfy`: the primitive suite, its laws, key generation and box.
- `secrets.dfy`: `randomASCII`.
- `envelope.dfy`: `addUser`'s digest, `addKeys`, the reopen path.
- `box_cipher.dfy`: `encrypt`/`decrypt`.
- `provisioning.dfy`: `addOrganization`, superuser credentials, the cookie key.

Behaviour of the code that the model keeps as written:
- `Intn(max-min) + min` never yields `max`, so `randomASCII(10, 16)` yields 10 to 15 characters (`Secrets.LengthChoices`).
- The all-zero sender secret is kept as written, and `BoxCipher.PublicKeyAloneOpens` states its consequence.
- Each Go panic is an `Err` value naming the panic.
- `randomASCII` with `minlength > maxlength` is the `Intn` panic, an `Err`, not a case excluded by a precondition. A negative chosen length gives the empty string, because the loop runs zero times.

## Model

| member | source | states |
|---|---|---|
| Secrets.ChooseLength | helper.go:26-31 | equal bounds give that length with no draw; distinct bounds give a length in [minlength, maxlength-1]; minlength > maxlength is exactly the Intn panic |
| Secrets.LengthChoices | helper.go:29-31 | with distinct bounds, a length is produced by some Intn draw if and only if it lies in [minlength, maxlength-1], so maxlength is never produced |
| Secrets.RandomAscii | helper.go:20-38 | fails exactly when minlength > maxlength; otherwise has max(0, chosen length) characters, exactly minlength for equal bounds and within [minlength, maxlength-1] for distinct non-negative bounds; character i is the alphabet entry at the i-th index draw and belongs to the character classes |
| Secrets.AlphabetLayout | helper.go:22-25 | the alphabet has 75 characters: A-Z, a-z, 0-9 as contiguous ranges, then the 13 symbols in literal order |
| Secrets.AlphabetIsCharacterClasses | helper.go:22-25 | a character is in the alphabet if and only if it is an upper-case letter, a lower-case letter, a digit or one of -+!<#$%>&()?* |
| Secrets.AlphabetIndexInjective | helper.go:33-35 | two index draws in [0,75) pick the same character if and only if they are equal, so each character is as likely as its index |
| BoxCipher.GeneratedKeypairRoundTrip | helper.go:102 | a keypair from box.GenerateKey works with encrypt and decrypt: a message encrypted to its public half decrypts with its private half |
| Primitives.BoxAgreement | helper.go:165-175 | a box sealed by a to b's public key opens for b with a's public key, given DH agreement and the secretbox round trip |
| Envelope.AddUser | helper.go:84-94 | the stored row keeps the id, name, salt and superuser flag, and its digest is 64 bytes long |
| Envelope.AddUserDigestMatches | helper.go:90 | the stored digest is Argon2id(password, salt, t=1, m=64*1024, p=4) at its 64-byte length, the parameters addKeys also uses, so it verifies the password it was created from |
| Envelope.SealingKeyAccepted | helper.go:103-104 | the 32-byte Argon2id key derived from any password and salt is accepted by aes.NewCipher/cipher.NewGCM, so the envelope never takes the invalid-key-size panic |
| Envelope.AddKeys | helper.go:96-113 | never fails when Argon2id yields the requested length; stores the public key of the sealed seed, the given ids, salt and 12-byte nonce, and a 48-byte sealed key (32-byte private key + 16-byte tag) |
| Envelope.OpenSealedKey | helper.go:115-131 | a returned key is what AES-GCM opens under Argon2id(password, stored salt, t=1, m=64*1024, p=4, 32 bytes) with the stored nonce and no additional data; when Argon2id yields 32 bytes, it succeeds exactly when AES-GCM authenticates, and every other outcome is a decryption error |
| Envelope.EnvelopeRoundTrip | helper.go:97-131 | the sealed private key reopens with the same password, salt and nonce to exactly the private key |
| Envelope.OpenedKeyMatchesPublicKey | helper.go:102-110 | the reopened key is 32 bytes and its public point is the public key stored for the organization |
| BoxCipher.Encrypt | helper.go:158-166 | output is the 24-byte nonce followed by the box sealed from the all-zero secret to the public key, 24 + message + 16 bytes long |
| BoxCipher.Decrypt | helper.go:168-180 | input shorter than 24 bytes is the slice panic; otherwise the first 24 bytes are the nonce, only the rest is opened from ScalarBaseMult(0), and failure to open is the decryption panic, never a message |
| BoxCipher.EncryptDecryptRoundTrip | helper.go:158-180 | decrypt(priv, encrypt(ScalarBaseMult(priv), m)) == m |
| BoxCipher.PublicKeyAloneOpens | helper.go:163-165 | anyone holding only the recipient's public key opens encrypt's output by using the zero secret |
| Provisioning.AddOrganization | helper.go:134-142 | the admin is a non-superuser with the given id; the organization refers to the admin; the key row joins admin and organization; the organization's public key is that of the sealed seed |
| Provisioning.OrganizationRoundTrip | helper.go:134-142 | after provisioning, the admin password verifies and reopens a 32-byte private key that decrypts anything encrypted to the organization's public key |
| Provisioning.SuperuserCredentials | helper.go:144-146 | the superuser name has 10 to 15 characters, the password 10 to 23, all from the alphabet |
| Provisioning.CookieKey | main.go:43-44 | the cookie key has exactly 32 characters, one alphabet entry per index draw |

## Left out

- Database statements (`initializeDB`, the SQL of `addUser`, `addOrganization`, `addKeys`, `addSuperuser`): storage I/O. Rows are returned as values. The delete-then-insert of `addSuperuser` and its concurrency are store concerns. Their failures are not modelled, and they fail in two ways:
  - The `Exec` statements panic on failure: those of `initializeDB`, of `addKeys` (helper.go:105-112) and the DELETE of `addSuperuser` (helper.go:148-151).
  - The `QueryRow` inserts of `addUser` and `addOrganization` drop the `Scan` error and leave the identifier at 0. `addKeys` then runs with organization 0: its UPDATE matches no row, so no public key is stored, and it still inserts a Keys row for organization 0. The `adminId` and `orgId` parameters of `Provisioning.AddOrganization` admit the value 0, but the model does not follow the lost UPDATE.
- Hex encoding of stored fields: a library call with no logic of its own here.
- Internals of Argon2id, AES-GCM, Curve25519, HSalsa20 and secretbox: foreign primitives, abstract in `Primitives.Suite`.
- Randomness sources: `math/rand` seeded by wall-clock time, and `crypto/rand`. Their draws are parameters. Uniformity, entropy and salt/nonce freshness are probabilistic and not stated.
- Failing `crypto/rand` reads: not modelled. The code reacts in several ways:
  - In `encrypt`, the read error panics.
  - In `addKeys`, a failed `box.GenerateKey` returns nil keys, and `pubKey[:]` then panics.
  - In `randomASCII`, a failed `rand.Int` returns nil, and `num.Int64()` then panics.
  - In `addUser` and `addKeys`, the salt and nonce reads are unchecked. `io.ReadFull` can leave them zero or partly filled.
- Failure of `open` with a wrong password or tampered data: a probabilistic property. AES-GCM is not key-committing, so no law of the suite can state it soundly. The model only guarantees that a failed open is an error, never a key.
- Envelope.OpenSealedKey: on a failed open, returns `Err(DecryptionError)`. The commented-out reopen code discards `Open`'s error and carries on with a nil plaintext. The model states the intended behaviour: a failed open never yields a key.
- Secrets.ChooseLength: does not model 64-bit overflow of `maxlength-minlength`; in Go, bounds such as minlength = MaxInt64, maxlength = -2 wrap to a positive bound and Intn does not panic. The callers pass only the constants 10, 16, 24 and 32.
- Secrets.RandomAscii: does not model 64-bit overflow of `maxlength-minlength` and `+ minlength`, because the callers pass the constants 10, 16, 24 and 32.
- All of `main.go` except the cookie key length: HTTP routing, static files, TLS and session management are framework glue.
- Argon2id's own panics on zero time or zero threads: the constants used (1 and 4) never trigger them.

=== FILE: box_cipher.dfy ===
/** encrypt and decrypt (helper.go): NaCl box framing with the nonce prepended
    to the box. The sender secret is the all-zero array `dsk` in both functions,
    so decrypt uses its public point ScalarBaseMult(0) as the peer key. */
module BoxCipher {
  import opened Bytes
  import opened Results
  import opened Primitives

  const NonceSize := 24

  /** The sender secret both functions use: a zero-valued [32]byte. */
  const ZeroSecret: Bytes32 := Zeros(32)

  /** encrypt: `nonce` is the 24 bytes read from crypto/rand; the output is the
      nonce followed by the box sealed from the zero secret to `publicKey`. */
  function Encrypt(s: Suite, publicKey: Bytes32, message: seq<byte>, nonce: Bytes24): (r: seq<byte>)
    ensures |r| >= NonceSize && r[..NonceSize] == nonce
    ensures r[NonceSize..] == BoxSeal(s, message, nonce, publicKey, ZeroSecret)
    ensures SecretboxOverhead(s) ==> |r| == NonceSize + |message| + TagSize
  {
    nonce + BoxSeal(s, message, nonce, publicKey, ZeroSecret)
  }

  /** decrypt: the first 24 bytes are the nonce and only the rest is opened, as a
      box from the zero secret's public point to `privateKey`. Input shorter
      than the nonce panics on the slice; a box that fails to open panics with
      "Decryption error.". For any 24-byte nonce n and box b, decrypting n + b
      opens b under n. */
  function Decrypt(s: Suite, privateKey: Bytes32, encrypted: seq<byte>): (r: Result<seq<byte>>)
    ensures |encrypted| < NonceSize ==> r == Err(SliceBoundsOutOfRange)
    ensures |encrypted| >= NonceSize ==>
              match BoxOpen(s, encrypted[NonceSize..], encrypted[..NonceSize], ScalarBaseMult(s, ZeroSecret), privateKey)
              case None => r == Err(DecryptionError)
              case Some(message) => r == Ok(message)
  {
    if |encrypted| < NonceSize then Err(SliceBoundsOutOfRange)
    else
      var decryptNonce: Bytes24 := encrypted[..NonceSize];
      var dpk := ScalarBaseMult(s, ZeroSecret);
      match BoxOpen(s, encrypted[NonceSize..], decryptNonce, dpk, privateKey)
      case None => Err(DecryptionError)
      case Some(decrypted) => Ok(decrypted)
  }

  /** decrypt(priv, encrypt(pub(priv), m)) == m: the zero secret sealed to
      pub(priv), and decrypt opens from the zero secret's public point with
      priv, so Diffie-Hellman agreement makes both sides use the same key. */
  lemma EncryptDecryptRoundTrip(s: Suite, privateKey: Bytes32, message: seq<byte>, nonce: Bytes24)
    requires DhAgreement(s) && SecretboxRoundTrip(s)
    ensures Decrypt(s, privateKey, Encrypt(s, ScalarBaseMult(s, privateKey), message, nonce)) == Ok(message)
  {
    BoxAgreement(s, message, nonce, ZeroSecret, privateKey);
  }

  /** The consequence of the fixed zero sender secret: whoever holds only the
      recipient's public key can open encrypt's output, by playing the sender
      with the zero secret. No private key is needed. */
  lemma PublicKeyAloneOpens(s: Suite, publicKey: Bytes32, message: seq<byte>, nonce: Bytes24)
    requires SecretboxRoundTrip(s)
    ensures var encrypted := Encrypt(s, publicKey, message, nonce);
            BoxOpen(s, encrypted[NonceSize..], encrypted[..NonceSize], publicKey, ZeroSecret) == Some(message)
  {
  }

  /** A keypair from box.GenerateKey works with encrypt and decrypt: what is
      encrypted to its public half decrypts with its private half. */
  lemma GeneratedKeypairRoundTrip(s: Suite, seed: Bytes32, message: seq<byte>, nonce: Bytes24)
    requires DhAgreement(s) && SecretboxRoundTrip(s)
    ensures var k := GenerateKey(s, seed);
            Decrypt(s, k.privateKey, Encrypt(s, k.publicKey, message, nonce)) == Ok(message)
  {
    EncryptDecryptRoundTrip(s, seed, message, nonce);
  }
}

=== FILE: bytes.dfy ===
/** Byte strings and the fixed-width byte arrays (`[12]byte`, `[24]byte`,
    `[32]byte`) that the Go code passes around. */
module Bytes {

  newtype byte = x: int | 0 <= x < 256

  /** `n` zero bytes: the value of a freshly declared Go byte array. */
  function Zeros(n: nat): (z: seq<byte>)
    ensures |z| == n
    ensures forall i :: 0 <= i < n ==> z[i] == 0
  {
    seq(n, _ => 0)
  }

  type Bytes12 = s: seq<byte> | |s| == 12 witness Zeros(12)
  type Bytes24 = s: seq<byte> | |s| == 24 witness Zeros(24)
  type Bytes32 = s: seq<byte> | |s| == 32 witness Zeros(32)
}

=== FILE: envelope.dfy ===
/** Password hashing and the private-key envelope of helper.go: addUser's
    stored digest, addKeys's sealing of a fresh Curve25519 private key under an
    Argon2id-derived AES-256-GCM key, and the reopen path kept (commented out)
    at the end of addKeys. Random salts, nonces and the key seed are parameters; the records
    are what the SQL statements store, before hex encoding. */
module Envelope {
  import opened Bytes
  import opened Results
  import opened Primitives

  // Argon2id parameters shared by addUser and addKeys.
  const TimeCost: nat := 1
  const MemoryKiB: nat := 64 * 1024
  const Threads: nat := 4

  /** Length of the stored password digest (addUser). */
  const DigestLength: nat := 64
  /** Length of the envelope key (addKeys): an AES-256 key. */
  const SealingKeyLength: nat := 32

  /** Argon2id of a password under the deployment's fixed cost parameters. */
  function Argon2idKey(s: Suite, password: seq<byte>, salt: Bytes32, keyLength: nat): seq<byte> {
    s.argon2id(password, salt, TimeCost, MemoryKiB, Threads, keyLength)
  }

  /** A row of the Users table. */
  datatype UserRow = UserRow(id: int, name: seq<byte>, digest: seq<byte>, salt: Bytes32, superuser: bool)

  /** addUser: hashes the password under a fresh 32-byte salt; `id` is the
      identifier the INSERT returned. */
  function AddUser(s: Suite, id: int, name: seq<byte>, password: seq<byte>, superuser: bool, salt: Bytes32): (u: UserRow)
    ensures u.id == id && u.name == name && u.salt == salt && u.superuser == superuser
    ensures Argon2Length(s) ==> |u.digest| == DigestLength
  {
    UserRow(id, name, Argon2idKey(s, password, salt, DigestLength), salt, superuser)
  }

  /** Whether `password` hashes to the digest stored in `u`. The Go code has no
      login path; this is the check any verifier of the stored row performs. */
  predicate DigestMatches(s: Suite, u: UserRow, password: seq<byte>) {
    Argon2idKey(s, password, u.salt, |u.digest|) == u.digest
  }

  /** The row addUser stores verifies the password it was created from. */
  lemma AddUserDigestMatches(s: Suite, id: int, name: seq<byte>, password: seq<byte>, superuser: bool, salt: Bytes32)
    requires Argon2Length(s)
    ensures DigestMatches(s, AddUser(s, id, name, password, superuser, salt), password)
  {
  }

  /** An AES block cipher wrapped in GCM mode; `key` has a valid AES size. */
  datatype Aead = Aead(key: seq<byte>)

  /** aes.NewCipher followed by cipher.NewGCM. NewCipher rejects a key that is
      not 16, 24 or 32 bytes; the Go code drops that error and NewGCM then
      panics on the nil block. */
  function NewGcm(key: seq<byte>): (r: Result<Aead>)
    ensures r.Ok? <==> IsAesKeySize(|key|)
    ensures r.Ok? ==> r.value.key == key
    ensures r.Err? ==> r.error == InvalidAesKeySize
  {
    if IsAesKeySize(|key|) then Ok(Aead(key)) else Err(InvalidAesKeySize)
  }

  /** The key addKeys derives is always one aes.NewCipher accepts, so the
      envelope never hits the invalid-key-size panic. */
  lemma SealingKeyAccepted(s: Suite, password: seq<byte>, salt: Bytes32)
    requires Argon2Length(s)
    ensures NewGcm(Argon2idKey(s, password, salt, SealingKeyLength)) == Ok(Aead(Argon2idKey(s, password, salt, SealingKeyLength)))
  {
  }

  /** A row of the Keys table: the sealed private key with its salt and nonce. */
  datatype KeyRow = KeyRow(userId: int, orgId: int, sealedKey: seq<byte>, salt: Bytes32, nonce: Bytes12)

  /** What addKeys writes: the organization's public key and its Keys row. */
  datatype Sealed = Sealed(publicKey: Bytes32, row: KeyRow)

  /** addKeys: generates a keypair from `seed`, derives a 32-byte key from the
      admin password and `salt`, and seals the private key with AES-GCM under
      `nonce` with no additional data. */
  function AddKeys(s: Suite, adminId: int, adminPassword: seq<byte>, orgId: int, salt: Bytes32, nonce: Bytes12, seed: Bytes32)
    : (r: Result<Sealed>)
    ensures Argon2Length(s) ==> r.Ok?
    ensures r.Ok? ==> r.value.publicKey == ScalarBaseMult(s, seed)
    ensures r.Ok? ==> r.value.row.userId == adminId && r.value.row.orgId == orgId
    ensures r.Ok? ==> r.value.row.salt == salt && r.value.row.nonce == nonce
    ensures r.Ok? && GcmOverhead(s) ==> |r.value.row.sealedKey| == PrivateKeyLength + TagSize
  {
    var keys := GenerateKey(s, seed);
    match NewGcm(Argon2idKey(s, adminPassword, salt, SealingKeyLength))
    case Err(e) => Err(e)
    case Ok(aead) =>
      var sealedKey := s.gcmSeal(aead.key, nonce, keys.privateKey, []);
      Ok(Sealed(keys.publicKey, KeyRow(adminId, orgId, sealedKey, salt, nonce)))
  }

  /** The reopen path: re-derive the key from the password and the stored salt
      and open the sealed key with the stored nonce. A failed authentication is
      reported as DecryptionError, never as a returned key; the commented-out Go
      code instead discards Open's error and carries on with a nil plaintext. */
  function OpenSealedKey(s: Suite, password: seq<byte>, row: KeyRow): (r: Result<seq<byte>>)
    ensures r.Ok? ==> s.gcmOpen(Argon2idKey(s, password, row.salt, SealingKeyLength), row.nonce, row.sealedKey, []) == Some(r.value)
    ensures Argon2Length(s) && r.Err? ==> r.error == DecryptionError
    ensures Argon2Length(s) ==> (r.Ok? <==> s.gcmOpen(Argon2idKey(s, password, row.salt, SealingKeyLength), row.nonce, row.sealedKey, []).Some?)
  {
    match NewGcm(Argon2idKey(s, password, row.salt, SealingKeyLength))
    case Err(e) => Err(e)
    case Ok(aead) =>
      match s.gcmOpen(aead.key, row.nonce, row.sealedKey, [])
      case None => Err(DecryptionError)
      case Some(plaintext) => Ok(plaintext)
  }

  /** Envelope round trip: the sealed private key reopens, with the password
      it was sealed under, to exactly the private key. */
  lemma EnvelopeRoundTrip(s: Suite, adminId: int, password: seq<byte>, orgId: int, salt: Bytes32, nonce: Bytes12, seed: Bytes32)
    requires Argon2Length(s) && GcmRoundTrip(s)
    ensures AddKeys(s, adminId, password, orgId, salt, nonce, seed).Ok?
    ensures OpenSealedKey(s, password, AddKeys(s, adminId, password, orgId, salt, nonce, seed).value.row) == Ok(seed)
  {
  }

  /** The reopened private key is the one whose public key addKeys stored. */
  lemma OpenedKeyMatchesPublicKey(s: Suite, adminId: int, password: seq<byte>, orgId: int, salt: Bytes32, nonce: Bytes12, seed: Bytes32)
    requires Argon2Length(s) && GcmRoundTrip(s)
    ensures var sealed := AddKeys(s, adminId, password, orgId, salt, nonce, seed).value;
            var reopened := OpenSealedKey(s, password, sealed.row);
            reopened.Ok? && |reopened.value| == 32 && ScalarBaseMult(s, reopened.value) == sealed.publicKey
  {
    EnvelopeRoundTrip(s, adminId, password, orgId, salt, nonce, seed);
  }
}

=== FILE: primitives.dfy ===
/** The foreign cryptographic primitives the Go code calls, kept abstract.

    A `Suite` bundles one implementation of each primitive as a function value.
    Nothing about their internals is modelled; the laws the protocol layer relies
    on are stated as predicates over a suite, and every property that needs a law
    requires exactly that law. Curve25519 key generation and the NaCl box
    construction are defined here from the primitives, the way
    golang.org/x/crypto builds them. */
module Primitives {
  import opened Bytes
  import opened Results

  datatype Suite = Suite(
    /** argon2.IDKey(password, salt, time, memory, threads, keyLen) */
    argon2id: (seq<byte>, seq<byte>, nat, nat, nat, nat) -> seq<byte>,
    /** AES-GCM with the standard 12-byte nonce: Seal(key, nonce, plaintext, additionalData) */
    gcmSeal: (seq<byte>, Bytes12, seq<byte>, seq<byte>) -> seq<byte>,
    /** AES-GCM Open(key, nonce, ciphertext, additionalData); None when authentication fails */
    gcmOpen: (seq<byte>, Bytes12, seq<byte>, seq<byte>) -> Option<seq<byte>>,
    /** curve25519.ScalarMult(scalar, point) */
    scalarMult: (Bytes32, Bytes32) -> Bytes32,
    /** the HSalsa20 core that box.Precompute applies to the shared point */
    hsalsa20: Bytes32 -> Bytes32,
    /** secretbox.Seal(message, nonce, key) */
    secretboxSeal: (Bytes32, Bytes24, seq<byte>) -> seq<byte>,
    /** secretbox.Open(box, nonce, key); None when authentication fails */
    secretboxOpen: (Bytes32, Bytes24, seq<byte>) -> Option<seq<byte>>
  )

  /** Bytes of authentication tag that GCM and secretbox add to a message. */
  const TagSize := 16

  /** Key sizes aes.NewCipher accepts (AES-128, AES-192, AES-256). */
  predicate IsAesKeySize(n: int) {
    n == 16 || n == 24 || n == 32
  }

  /** Argon2id yields exactly the number of bytes asked for. */
  ghost predicate Argon2Length(s: Suite) {
    forall password, salt, time, memory, threads, keyLen ::
      |s.argon2id(password, salt, time, memory, threads, keyLen)| == keyLen
  }

  /** AES-GCM opens what it sealed, under a valid key and the same nonce and data. */
  ghost predicate GcmRoundTrip(s: Suite) {
    forall key, nonce, plaintext, data ::
      IsAesKeySize(|key|) ==>
        s.gcmOpen(key, nonce, s.gcmSeal(key, nonce, plaintext, data), data) == Some(plaintext)
  }

  /** AES-GCM output is the plaintext length plus a 16-byte tag. */
  ghost predicate GcmOverhead(s: Suite) {
    forall key, nonce, plaintext, data ::
      |s.gcmSeal(key, nonce, plaintext, data)| == |plaintext| + TagSize
  }

  /** Diffie-Hellman agreement on Curve25519: a * (b * G) == b * (a * G). */
  ghost predicate DhAgreement(s: Suite) {
    forall a, b ::
      s.scalarMult(a, s.scalarMult(b, BasePoint)) == s.scalarMult(b, s.scalarMult(a, BasePoint))
  }

  /** secretbox opens what it sealed under the same key and nonce. */
  ghost predicate SecretboxRoundTrip(s: Suite) {
    forall key, nonce, message ::
      s.secretboxOpen(key, nonce, s.secretboxSeal(key, nonce, message)) == Some(message)
  }

  /** secretbox output is the message length plus box.Overhead (16) bytes. */
  ghost predicate SecretboxOverhead(s: Suite) {
    forall key, nonce, message ::
      |s.secretboxSeal(key, nonce, message)| == |message| + TagSize
  }

  /** Every law at once. */
  ghost predicate Sound(s: Suite) {
    && Argon2Length(s)
    && GcmRoundTrip(s)
    && GcmOverhead(s)
    && DhAgreement(s)
    && SecretboxRoundTrip(s)
    && SecretboxOverhead(s)
  }

  /** The Curve25519 base point u = 9. */
  const BasePoint: Bytes32 := [9] + Zeros(31)

  /** curve25519.ScalarBaseMult: the public point of a secret scalar. */
  function ScalarBaseMult(s: Suite, scalar: Bytes32): Bytes32 {
    s.scalarMult(scalar, BasePoint)
  }

  /** Width of a Curve25519 private key, the `[32]byte` box.GenerateKey returns. */
  const PrivateKeyLength := 32

  datatype Keypair = Keypair(publicKey: Bytes32, privateKey: Bytes32)

  /** box.GenerateKey: 32 random bytes become the private key and its base-point
      multiple the public key. The random bytes are the parameter `seed`. */
  function GenerateKey(s: Suite, seed: Bytes32): (k: Keypair)
    ensures k.privateKey == seed
    ensures k.publicKey == ScalarBaseMult(s, k.privateKey)
  {
    Keypair(s.scalarMult(seed, BasePoint), seed)
  }

  /** box.Precompute: the symmetric key shared by `privateKey` and the owner of
      `peersPublicKey`. */
  function Precompute(s: Suite, peersPublicKey: Bytes32, privateKey: Bytes32): Bytes32 {
    s.hsalsa20(s.scalarMult(privateKey, peersPublicKey))
  }

  /** box.Seal without the output prefix: secretbox under the precomputed key. */
  function BoxSeal(s: Suite, message: seq<byte>, nonce: Bytes24, peersPublicKey: Bytes32, privateKey: Bytes32): seq<byte> {
    s.secretboxSeal(Precompute(s, peersPublicKey, privateKey), nonce, message)
  }

  /** box.Open: secretbox open under the precomputed key. */
  function BoxOpen(s: Suite, box: seq<byte>, nonce: Bytes24, peersPublicKey: Bytes32, privateKey: Bytes32): Option<seq<byte>> {
    s.secretboxOpen(Precompute(s, peersPublicKey, privateKey), nonce, box)
  }

  /** Both parties of a box derive the same key: what `a` seals for `b`'s public
      key, `b` opens with `a`'s public key. */
  lemma BoxAgreement(s: Suite, message: seq<byte>, nonce: Bytes24, a: Bytes32, b: Bytes32)
    requires DhAgreement(s) && SecretboxRoundTrip(s)
    ensures BoxOpen(s, BoxSeal(s, message, nonce, ScalarBaseMult(s, b), a), nonce, ScalarBaseMult(s, a), b) == Some(message)
  {
  }
}

=== FILE: provisioning.dfy ===
/** How helper.go composes the pieces: addOrganization (admin user, then the
    organization's keypair and envelope), addSuperuser's generated credentials,
    and the cookie key main.go generates on first start. Identifiers assigned by
    the database are parameters. */
module Provisioning {
  import opened Bytes
  import opened Results
  import opened Primitives
  import opened Secrets
  import opened Envelope
  import opened BoxCipher

  /** A row of the Organizations table once addKeys has set its public key. */
  datatype OrganizationRow = OrganizationRow(id: int, name: seq<byte>, adminId: int, publicKey: Bytes32)

  /** Everything addOrganization stores. */
  datatype Organization = Organization(admin: UserRow, org: OrganizationRow, key: KeyRow)

  /** addOrganization: adds the admin as a non-superuser, inserts the
      organization with that admin, then runs addKeys under the admin password.
      `userSalt` is addUser's salt draw; `keySalt`, `nonce` and `seed` are
      addKeys's draws. */
  function AddOrganization(
    s: Suite, orgName: seq<byte>, adminName: seq<byte>, adminPassword: seq<byte>,
    adminId: int, orgId: int, userSalt: Bytes32, keySalt: Bytes32, nonce: Bytes12, seed: Bytes32)
    : (r: Result<Organization>)
    ensures Argon2Length(s) ==> r.Ok?
    ensures r.Ok? ==> && r.value.admin.id == adminId && r.value.admin.name == adminName
                      && !r.value.admin.superuser
                      && r.value.org.id == orgId && r.value.org.name == orgName
                      && r.value.org.adminId == adminId
                      && r.value.key.userId == adminId && r.value.key.orgId == orgId
    ensures r.Ok? ==> r.value.org.publicKey == ScalarBaseMult(s, seed)
  {
    var admin := AddUser(s, adminId, adminName, adminPassword, false, userSalt);
    match AddKeys(s, adminId, adminPassword, orgId, keySalt, nonce, seed)
    case Err(e) => Err(e)
    case Ok(sealed) => Ok(Organization(admin, OrganizationRow(orgId, orgName, adminId, sealed.publicKey), sealed.row))
  }

  /** End to end: after addOrganization, the admin password verifies against the
      admin row and reopens a private key, and whatever encrypt seals to the
      organization's stored public key decrypts with that key. */
  lemma OrganizationRoundTrip(
    s: Suite, orgName: seq<byte>, adminName: seq<byte>, adminPassword: seq<byte>,
    adminId: int, orgId: int, userSalt: Bytes32, keySalt: Bytes32, nonce: Bytes12, seed: Bytes32,
    message: seq<byte>, boxNonce: Bytes24)
    requires Sound(s)
    ensures var r := AddOrganization(s, orgName, adminName, adminPassword, adminId, orgId, userSalt, keySalt, nonce, seed);
            && r.Ok?
            && DigestMatches(s, r.value.admin, adminPassword)
            && var privateKey := OpenSealedKey(s, adminPassword, r.value.key);
               && privateKey.Ok? && |privateKey.value| == 32
               && Decrypt(s, privateKey.value, Encrypt(s, r.value.org.publicKey, message, boxNonce)) == Ok(message)
  {
    EnvelopeRoundTrip(s, adminId, adminPassword, orgId, keySalt, nonce, seed);
    AddUserDigestMatches(s, adminId, adminName, adminPassword, false, userSalt);
    EncryptDecryptRoundTrip(s, seed, message, boxNonce);
  }

  /** addSuperuser's credentials: randomASCII(10, 16) for the name and
      randomASCII(10, 24) for the password. Each length draw is Intn's value
      for its call; each index stream gives that call's character draws. */
  method SuperuserCredentials(
    nameLengthDraw: int, nameDraw: nat -> AlphabetIndex,
    passwordLengthDraw: int, passwordDraw: nat -> AlphabetIndex)
    returns (name: string, password: string)
    requires 0 <= nameLengthDraw < 16 - 10
    requires 0 <= passwordLengthDraw < 24 - 10
    ensures |name| == 10 + nameLengthDraw && 10 <= |name| <= 15
    ensures |password| == 10 + passwordLengthDraw && 10 <= |password| <= 23
    ensures forall i :: 0 <= i < |name| ==> name[i] in Alphabet
    ensures forall i :: 0 <= i < |password| ==> password[i] in Alphabet
  {
    var n := RandomAscii(10, 16, nameLengthDraw, nameDraw);
    var p := RandomAscii(10, 24, passwordLengthDraw, passwordDraw);
    name, password := n.value, p.value;
  }

  /** The session cookie key main.go writes on first start: randomASCII(32, 32),
      which draws no length and always has 32 characters. */
  method CookieKey(indexDraw: nat -> AlphabetIndex) returns (key: string)
    ensures |key| == 32
    ensures forall i :: 0 <= i < |key| ==> key[i] == Alphabet[indexDraw(i)]
  {
    var r := RandomAscii(32, 32, 0, indexDraw);
    key := r.value;
  }
}

=== FILE: results.dfy ===
/** Outcomes of the modelled operations. The Go code reports failures by
    panicking; here each failure becomes an `Err` carrying what went wrong. */
module Results {

  datatype Option<+T> = None | Some(value: T)

  /** What can go wrong. Each is a panic in the Go code, except a
      DecryptionError on the reopen path, whose error the commented-out code
      discards. */
  datatype Panic =
    | InvalidIntnArgument     // math/rand.Intn called with a non-positive bound
    | SliceBoundsOutOfRange   // slicing a ciphertext shorter than its nonce
    | InvalidAesKeySize       // aes.NewCipher given a key that is not 16, 24 or 32 bytes
    | DecryptionError         // an AEAD or box open that failed to authenticate

  datatype Result<+T> = Ok(value: T) | Err(error: Panic)
}

=== FILE: secrets.dfy ===
/** randomASCII (helper.go): a random printable secret of a length chosen
    between two bounds. Both sources of randomness are parameters: the value
    math/rand.Intn returned for the length, and the stream of values
    crypto/rand.Int returned for the characters, one per character in order. */
module Secrets {
  import opened Results

  // The alphabet, in the order the Go code concatenates it.
  const Upper: string := "ABCDEFGHIJKLMNOPQRSTUVWXYZ"
  const Lower: string := "abcdefghijklmnopqrstuvwxyz"
  const Digits: string := "0123456789"
  const Symbols: string := "-+!<#$%>&()?*"
  const Alphabet: string := Upper + Lower + Digits + Symbols

  /** A value of rand.Int(rand.Reader, big.NewInt(75)): an index into the alphabet. */
  type AlphabetIndex = i: int | 0 <= i < 75

  predicate IsUpper(c: char) { 'A' <= c <= 'Z' }
  predicate IsLower(c: char) { 'a' <= c <= 'z' }
  predicate IsDigit(c: char) { '0' <= c <= '9' }

  /** The character classes the alphabet is made of, stated independently of it. */
  predicate InCharacterClasses(c: char) {
    IsUpper(c) || IsLower(c) || IsDigit(c) || c in Symbols
  }

  /** Where each class sits in the alphabet: letters and digits as contiguous
      code-point ranges, then the symbols in their literal order. */
  lemma AlphabetLayout()
    ensures |Alphabet| == 75
    ensures forall i :: 0 <= i < 26 ==> Alphabet[i] == ('A' as int + i) as char
    ensures forall i :: 26 <= i < 52 ==> Alphabet[i] == ('a' as int + (i - 26)) as char
    ensures forall i :: 52 <= i < 62 ==> Alphabet[i] == ('0' as int + (i - 52)) as char
    ensures forall i :: 62 <= i < 75 ==> Alphabet[i] == Symbols[i - 62]
  {
    assert forall i :: 0 <= i < 26 ==> Upper[i] == ('A' as int + i) as char;
    assert forall i :: 0 <= i < 26 ==> Lower[i] == ('a' as int + i) as char;
    assert forall i :: 0 <= i < 10 ==> Digits[i] == ('0' as int + i) as char;
  }

  /** The symbols lie outside the letter and digit ranges and are pairwise distinct. */
  lemma SymbolsAreDistinctPunctuation()
    ensures forall k :: 0 <= k < |Symbols| ==> !IsUpper(Symbols[k]) && !IsLower(Symbols[k]) && !IsDigit(Symbols[k])
    ensures forall k, l :: 0 <= k < l < |Symbols| ==> Symbols[k] != Symbols[l]
  {
  }

  /** The alphabet is exactly the upper-case letters, lower-case letters, digits
      and the thirteen symbols: 26 + 26 + 10 + 13 = 75 characters. */
  lemma AlphabetIsCharacterClasses(c: char)
    ensures c in Alphabet <==> InCharacterClasses(c)
  {
    AlphabetLayout();
    if c in Alphabet {
      var i :| 0 <= i < |Alphabet| && Alphabet[i] == c;
      if 62 <= i {
        assert Symbols[i - 62] == c;
      }
    }
    if IsUpper(c) {
      assert Alphabet[c as int - 'A' as int] == c;
    } else if IsLower(c) {
      assert Alphabet[c as int - 'a' as int + 26] == c;
    } else if IsDigit(c) {
      assert Alphabet[c as int - '0' as int + 52] == c;
    } else if c in Symbols {
      var k :| 0 <= k < |Symbols| && Symbols[k] == c;
      assert Alphabet[k + 62] == c;
    }
  }

  /** Distinct index draws give distinct characters, so every character of the
      alphabet is picked with the same probability as its index. */
  lemma AlphabetIndexInjective(i: AlphabetIndex, j: AlphabetIndex)
    ensures Alphabet[i] == Alphabet[j] <==> i == j
  {
    AlphabetLayout();
    SymbolsAreDistinctPunctuation();
  }

  /** The length rule of randomASCII. Equal bounds give that length with no draw;
      otherwise the length is Intn(maxlength - minlength) + minlength, where
      `lengthDraw` is the value Intn returned. Intn panics on a non-positive
      bound, which is the case minlength > maxlength. */
  function ChooseLength(minlength: int, maxlength: int, lengthDraw: int): (r: Result<int>)
    requires minlength < maxlength ==> 0 <= lengthDraw < maxlength - minlength
    ensures minlength == maxlength ==> r == Ok(minlength)
    ensures minlength < maxlength ==> r.Ok? && minlength <= r.value < maxlength
    ensures r.Err? <==> minlength > maxlength
    ensures r.Err? ==> r.error == InvalidIntnArgument
  {
    if minlength == maxlength then Ok(minlength)
    else if maxlength - minlength <= 0 then Err(InvalidIntnArgument)
    else Ok(lengthDraw + minlength)
  }

  /** With distinct bounds, the lengths some draw of Intn can produce are exactly
      minlength .. maxlength - 1: every one of them, and never maxlength. */
  lemma {:induction false} LengthChoices(minlength: int, maxlength: int, length: int)
    requires minlength < maxlength
    ensures (exists d :: 0 <= d < maxlength - minlength && ChooseLength(minlength, maxlength, d) == Ok(length))
            <==> minlength <= length < maxlength
  {
    if minlength <= length < maxlength {
      assert ChooseLength(minlength, maxlength, length - minlength) == Ok(length);
    }
  }

  /** Number of loop iterations for a chosen length: a negative length runs none. */
  function Iterations(length: int): nat {
    if length < 0 then 0 else length
  }

  /** randomASCII(minlength, maxlength). Character i is the alphabet entry at
      index `indexDraw(i)`. */
  method RandomAscii(minlength: int, maxlength: int, lengthDraw: int, indexDraw: nat -> AlphabetIndex)
    returns (r: Result<string>)
    requires minlength < maxlength ==> 0 <= lengthDraw < maxlength - minlength
    ensures r.Err? <==> minlength > maxlength
    ensures r.Err? ==> r.error == InvalidIntnArgument
    ensures r.Ok? ==> |r.value| == Iterations(ChooseLength(minlength, maxlength, lengthDraw).value)
    ensures 0 <= minlength == maxlength ==> r.Ok? && |r.value| == minlength
    ensures 0 <= minlength < maxlength ==> r.Ok? && minlength <= |r.value| < maxlength
    ensures r.Ok? ==> forall i :: 0 <= i < |r.value| ==> r.value[i] == Alphabet[indexDraw(i)]
    ensures r.Ok? ==> forall i :: 0 <= i < |r.value| ==> InCharacterClasses(r.value[i])
  {
    var chosen := ChooseLength(minlength, maxlength, lengthDraw);
    if chosen.Err? {
      return Err(chosen.error);
    }
    var length := chosen.value;
    var b: string := [];
    var i := 0;
    while i < length
      invariant 0 <= i <= Iterations(length)
      invariant |b| == i
      invariant forall j :: 0 <= j < i ==> b[j] == Alphabet[indexDraw(j)]
    {
      b := b + [Alphabet[indexDraw(i)]];
      i := i + 1;
    }
    forall k | 0 <= k < |b|
      ensures InCharacterClasses(b[k])
    {
      AlphabetIsCharacterClasses(b[k]);
    }
    return Ok(b);
  }
}
